=== FILE: README.md ===
# Spectral CUNIT validation and ERFA time-scale wrappers, in Dafny

This project models the two pieces of deterministic logic in the OpenCADC
`wcs` repository:

- **`SpectralUtil.isValidCunit`** (cadc-wcs). It walks the parallel `ctypes`
  and `cunits` arrays of a WCS header. Each CTYPE that equals one of ten
  spectral codes (`FREQ`, `ENER`, ..., whole string, case-insensitively)
  must be paired with an empty CUNIT or one of sixteen known units. Any
  other unit raises `WCSLibRuntimeException("Invalid coordinate
  transformation parameters", 6)`.
- **The ten JNI wrappers in `erfalib.c`** (cadc-erfa). Each one calls an
  ERFA time-scale routine (TAI, TT, UT1, UTC) and turns its status and
  two-part Julian Date into a two-element `double[]` or a Java exception.
  The four UTC wrappers tell apart `UnacceptableDateException` (status -1),
  `DubiousYearException` (+1) and `ERFALibException` (anything else). The
  six others raise `ERFALibException` for every nonzero status.

Files:

- `ascii_case.dfy`: module `AsciiCase`. Java's `equalsIgnoreCase`, with
  ASCII case folding.
- `spectral_util.dfy`: module `SpectralUtil` and module `SpectralUtilFacts`.
  - `SpectralUtil` holds the two tables, the functional specification
    `Check` and the imperative loop nest `IsValidCunit`, which is proved
    equal to `Check`.
  - `SpectralUtilFacts` holds the lemmas about the tables and the unit-test
    cases.
- `erfa_lib.dfy`: module `ErfaLib` and module `ErfaLibFacts`.
  - `ErfaLib` holds the scales, the conversions, the exception messages, the
    shared status/allocation decision `Translate` and the ten wrappers.
  - `ErfaLibFacts` holds the per-group consequences and the message lemmas.
- `jni_control_flow.dfy`: module `JniControlFlow`. It lists the JNI calls a
  wrapper makes, as written and corrected (see Findings).

Each ERFA kernel routine is a function-valued parameter of its wrapper, over
an abstract number type `D` that stands for `double`. The model therefore
says nothing about the kernels' numerics. The Java arrays are Dafny
sequences. Sequences are values, so the validator cannot modify its inputs.

When a spectral CTYPE has no CUNIT at the same index, the Java code fails
with `ArrayIndexOutOfBoundsException`. The model makes this its own outcome,
`IndexOutOfBounds(i)`.

## Model

| member | source | states |
|---|---|---|
| AsciiCase.EqualsIgnoreCaseIff | cadc-wcs/src/main/java/ca/nrc/cadc/wcs/SpectralUtil.java:109 | Two strings match ignoring case exactly when their upper-case forms are equal. The three-step per-character rule (equal, equal upper case, equal lower case of upper case) comes down to equal upper case. |
| AsciiCase.EqualsIgnoreCaseIsEquivalence | cadc-wcs/src/main/java/ca/nrc/cadc/wcs/SpectralUtil.java:116 | Matching ignoring case is reflexive, symmetric and transitive. So the order of the arguments (`spectralCunit.equalsIgnoreCase(cunit)`) does not matter. |
| SpectralUtil.FirstFault | cadc-wcs/src/main/java/ca/nrc/cadc/wcs/SpectralUtil.java:106-127 | The scan position where the loop first meets a faulty axis is in range. No axis before it is faulty, and the axis there, if any, is faulty. A faulty axis is spectral and has a missing or unacceptable unit. |
| SpectralUtil.Check | cadc-wcs/src/main/java/ca/nrc/cadc/wcs/SpectralUtil.java:98-128 | If either array is empty the call is accepted. A rejection carries exactly the message "Invalid coordinate transformation parameters" and status 6. An index failure points at a spectral CTYPE whose index is past the end of `cunits`. |
| SpectralUtil.IsValidCunit | cadc-wcs/src/main/java/ca/nrc/cadc/wcs/SpectralUtil.java:98-128 | The Java loop nest (axes, then spectral codes, then units with a `found` flag) ends with exactly the outcome of the functional specification `Check`. |
| SpectralUtil.FailsIffSomeFault | cadc-wcs/src/main/java/ca/nrc/cadc/wcs/SpectralUtil.java:102-127 | The call fails, in either way, if and only if both arrays are non-empty and some axis has a spectral CTYPE with a missing or unacceptable CUNIT. |
| SpectralUtil.RejectedIffInvalid | cadc-wcs/src/main/java/ca/nrc/cadc/wcs/SpectralUtil.java:106-124 | Suppose every spectral axis has a CUNIT at the same index. Then the index exception cannot occur. The status-6 exception is raised if and only if some index pairs a spectral CTYPE with a non-empty, unlisted CUNIT. Otherwise the call returns normally. |
| SpectralUtilFacts.SpectralCtypeByUpperCase | cadc-wcs/src/main/java/ca/nrc/cadc/wcs/SpectralUtil.java:76-79 | A CTYPE is spectral exactly when its whole upper-cased string is one of the ten codes. So only four-character CTYPEs can be spectral, and "FREQ-F2W" is not. |
| SpectralUtilFacts.KnownCunitByUpperCase | cadc-wcs/src/main/java/ca/nrc/cadc/wcs/SpectralUtil.java:81-84 | A CUNIT is known exactly when its upper-cased form is one of the sixteen upper-cased table entries. |
| SpectralUtilFacts.UpperCunitsEntry | cadc-wcs/src/main/java/ca/nrc/cadc/wcs/SpectralUtil.java:81-84 | Upper-casing each unit of the table gives the matching entry of the independently written upper-case table. |
| SpectralUtilFacts.FirstFaultCongruent | cadc-wcs/src/main/java/ca/nrc/cadc/wcs/SpectralUtil.java:106-127 | The scan depends on the arrays only through which axes are faulty. |
| SpectralUtilFacts.NonSpectralUnitIgnored | cadc-wcs/src/main/java/ca/nrc/cadc/wcs/SpectralUtil.java:107-110 | The CUNIT paired with a non-spectral CTYPE is never examined: replacing it with any string leaves the outcome unchanged. |
| SpectralUtilFacts.SingleAxis | cadc-wcs/src/main/java/ca/nrc/cadc/wcs/SpectralUtil.java:110-124 | A one-axis header is accepted if and only if its CTYPE is not spectral or its CUNIT is empty or listed. Any listed unit passes for any spectral code, since units are not paired by dimension. Otherwise the header is rejected with status 6. |
| SpectralUtilFacts.EmptyParameterCases | cadc-wcs/src/test/java/ca/nrc/cadc/wcs/SpectralUtilTest.java:22-60 | The five empty-array and empty-string cases of the unit test are accepted. |
| SpectralUtilFacts.UnknownCtypeCase | cadc-wcs/src/test/java/ca/nrc/cadc/wcs/SpectralUtilTest.java:84-86 | WAVE/FOO/FREQ with m/Hz/eV is accepted. The unit paired with FOO is ignored. |
| SpectralUtilFacts.InvalidCunitCase | cadc-wcs/src/test/java/ca/nrc/cadc/wcs/SpectralUtilTest.java:100-103 | WAVE/ENER/FREQ with m/BAR/eV is rejected with the status-6 exception. |
| SpectralUtilFacts.ValidTableCase | cadc-wcs/src/test/java/ca/nrc/cadc/wcs/SpectralUtilTest.java:71-73 | Sixteen spectral axes paired with the sixteen listed units, in table order, are accepted. The micrometre unit is written "µm" (U+00B5 'm') as in the unit table, not as the test file spells it (see Findings). |
| SpectralUtilFacts.VerbatimTableCase | cadc-wcs/src/test/java/ca/nrc/cadc/wcs/SpectralUtilTest.java:71-73 | The test's arrays read as UTF-8, with "Âµm" (U+00C2 U+00B5 'm') at index 12, are rejected with the status-6 exception: the WAVN axis there carries an unlisted unit. |
| SpectralUtilFacts.FirstFaultAfterOneChange | cadc-wcs/src/main/java/ca/nrc/cadc/wcs/SpectralUtil.java:106-124 | In arrays with no faulty axis, replacing the unit of one spectral axis with an unacceptable one gets the status-6 exception. |
| SpectralUtilFacts.CaseCollisions | cadc-wcs/src/main/java/ca/nrc/cadc/wcs/SpectralUtil.java:116 | Case-insensitive matching accepts "mHz" (as MHz) and "Mm" (as mm), and treats "freq" as spectral. |
| ErfaLib.Translate | cadc-erfa/src/erfaLibJNI/c/erfalib.c:410-430 | The shared status and allocation handling follows the decision table, row by row. Success needs status 0 and an allocated array. The array then holds the two kernel parts in order. Only UTC conversions turn -1 into Unacceptable and +1 into Dubious, with their fixed messages. Every other failure is generic: with the conversion's status message when the status is nonzero, otherwise with its allocation message. |
| ErfaLib.StatusError | cadc-erfa/src/erfaLibJNI/c/erfalib.c:411-421 | A nonzero status never yields a result array. It is Unacceptable exactly for -1 in a UTC conversion, and Dubious exactly for +1 in a UTC conversion. |
| ErfaLib.FollowsTableDeterministic | cadc-erfa/src/erfaLibJNI/c/erfalib.c:407-431 | At most one outcome follows the decision table, so the table fully determines each wrapper's result. |
| ErfaLib.Tai2tt | cadc-erfa/src/erfaLibJNI/c/erfalib.c:159-176 | The TAI→TT wrapper's outcome follows the decision table for `eraTaitt` at exactly (tai1, tai2). |
| ErfaLib.Tt2tai | cadc-erfa/src/erfaLibJNI/c/erfalib.c:202-219 | The TT→TAI wrapper's outcome follows the decision table for `eraTttai` at exactly (tt1, tt2). |
| ErfaLib.Tai2ut1 | cadc-erfa/src/erfaLibJNI/c/erfalib.c:249-266 | The TAI→UT1 wrapper's outcome follows the decision table for `eraTaiut1` at exactly (tai1, tai2, dta). |
| ErfaLib.Ut12tai | cadc-erfa/src/erfaLibJNI/c/erfalib.c:296-313 | The UT1→TAI wrapper's outcome follows the decision table for `eraUt1tai` at exactly (ut11, ut12, dta). |
| ErfaLib.Tt2ut1 | cadc-erfa/src/erfaLibJNI/c/erfalib.c:341-358 | The TT→UT1 wrapper's outcome follows the decision table for `eraTtut1` at exactly (tt1, tt2, dt). |
| ErfaLib.Tai2utc | cadc-erfa/src/erfaLibJNI/c/erfalib.c:407-431 | The TAI→UTC wrapper's outcome follows the decision table for `eraTaiutc` at exactly (tai1, tai2), with date classification. |
| ErfaLib.Utc2tai | cadc-erfa/src/erfaLibJNI/c/erfalib.c:482-506 | The UTC→TAI wrapper's outcome follows the decision table for `eraUtctai` at exactly (utc1, utc2), with date classification. |
| ErfaLib.Ut12utc | cadc-erfa/src/erfaLibJNI/c/erfalib.c:560-584 | The UT1→UTC wrapper's outcome follows the decision table for `eraUt1utc` at exactly (ut11, ut12, dut1), with date classification. |
| ErfaLib.Utc2ut1 | cadc-erfa/src/erfaLibJNI/c/erfalib.c:639-663 | The UTC→UT1 wrapper's outcome follows the decision table for `eraUtcut1` at exactly (utc1, utc2, dut1), with date classification. |
| ErfaLib.Ut12tt | cadc-erfa/src/erfaLibJNI/c/erfalib.c:692-709 | The UT1→TT wrapper's outcome follows the decision table for `eraUt1tt` at exactly (ut11, ut12, dt). |
| ErfaLibFacts.ConversionGroups | cadc-erfa/src/erfaLibJNI/c/erfalib.c:560-574 | Exactly the four conversions to or from UTC classify dates. Exactly the six involving UT1 take an observed offset (the three-argument wrappers, such as `eraUt12utc` with `dut1`). No conversion maps a scale to itself. |
| ErfaLibFacts.UtcStatusCases | cadc-erfa/src/erfaLibJNI/c/erfalib.c:411-421 | In a UTC wrapper, with any allocation outcome, a nonzero status gives the following. Status -1 gives Unacceptable("year too early to compute Julian Date"). Status +1 gives Dubious("date either predates UTC or too far in the future"). Any other status gives the generic failure with the conversion's message. |
| ErfaLibFacts.NonUtcCollapse | cadc-erfa/src/erfaLibJNI/c/erfalib.c:164-167 | In the six non-UTC wrappers, Dubious and Unacceptable never occur, and every nonzero status gives the generic failure with the conversion's message. |
| ErfaLibFacts.SuccessPath | cadc-erfa/src/erfaLibJNI/c/erfalib.c:168-175 | With status 0 the outcome is one of two. It is the array [part1, part2] of the kernel's outputs, or, if allocation fails, the generic failure with the allocation message. |
| ErfaLibFacts.LabelNamesEdge | cadc-erfa/src/erfaLibJNI/c/erfalib.c:171 | Each allocation-message label "X->Y" names the conversion's own source and target scales. |
| ErfaLibFacts.UtcFailureMessage | cadc-erfa/src/erfaLibJNI/c/erfalib.c:419 | Every UTC wrapper's status message is "unknown error transforming " followed by its own label. |
| ErfaLibFacts.NonUtcFailureMessage | cadc-erfa/src/erfaLibJNI/c/erfalib.c:302 | The status message of every non-UTC wrapper except TT→TAI and TAI→UT1 is "unknown error converting " followed by its own label. |
| ErfaLibFacts.FailureMessageQuirks | cadc-erfa/src/erfaLibJNI/c/erfalib.c:207-208 | There are two irregular status messages. TT→TAI reuses "unknown error converting TAI->TT". TAI→UT1 reads "TAI-UT1", with a hyphen. No other two wrappers share a status message. |
| ErfaLibFacts.KernelArgumentsPassedThrough | cadc-erfa/src/erfaLibJNI/c/erfalib.c:563 | Stated for `Ut12utc`: the UT1→UTC wrapper looks at its kernel only at its own (ut11, ut12, dut1), in that order. Two kernels that agree there give the same outcome, and on success the result is exactly that point's two parts. |
| JniControlFlow.AsWritten | cadc-erfa/src/erfaLibJNI/c/erfalib.c:162-175 | The calls a wrapper makes, in source order: the kernel call, a ThrowNew of the status exception (`StatusError`) exactly when the status is nonzero, NewDoubleArray, a ThrowNew of the generic allocation message exactly when the array is NULL, SetDoubleArrayRegion (on the NULL array when allocation failed), and the return. Neither throw is followed by a return: the only return is the last call. |
| JniControlFlow.AsWrittenCallsJniWithExceptionPending | cadc-erfa/src/erfaLibJNI/c/erfalib.c:164-169 | As written, every nonzero status leads to a NewDoubleArray call while the thrown exception is pending. With an exception pending, the JNI specification allows only its exception-safe functions (such as ExceptionCheck, ExceptionClear or DeleteLocalRef), and `NewDoubleArray` is not one of them. |
| JniControlFlow.AsWrittenWritesNullArray | cadc-erfa/src/erfaLibJNI/c/erfalib.c:169-175 | As written, a failed allocation leads to SetDoubleArrayRegion on the NULL array, whatever the status. This breaks the separate JNI rule against writing into a null array, not only the rule against calls with an exception pending. |
| JniControlFlow.CorrectedMatchesTranslate | cadc-erfa/src/erfaLibJNI/c/erfalib.c:164-175 | With a return after each ThrowNew, the call sequence obeys the JNI discipline on every path. It is identical to the code as written on the success path. On a failure path it is the code as written up to and including the first ThrowNew, followed by the return. The Java caller observes exactly the outcome given by `Translate`. |

## Left out

- ERFA kernel numerics: the TAI/TT/UT1/UTC arithmetic, the leap-second table and the Delta-T handling are foreign C over doubles. Each kernel is an arbitrary function parameter, so no numeric fixture (for example TAI 2453750.5 + 0.892482639 → TT) and no round trip within 1e-6/1e-12 day can be stated.
- Date classification thresholds: JD 2436934.5 (dubious before UTC began) and JD −31738.5 (unacceptable) are decided inside ERFA. The wrappers only pass on the status the kernel returns, and the model does the same.
- Offset sensitivity (different ΔT, ΔUT1 or UT1−TAI values give different dates) is a property of the kernels. The wrappers only pass the offset through (`KernelArgumentsPassedThrough`).
- Composed TT→UTC and UTC→TT: the Java tests call `tt2utc`/`utc2tt`, but no source file defines them.
- `ERFALib.java`: one-line delegations to the native methods and the static block that loads the native library. There is no logic beyond what the C wrappers carry.
- JNI exception plumbing: `FindClass` and `ThrowNew` themselves are left out. So is the `NoClassDefFoundError` fallback when an exception class cannot be found, and its self-recursion (erfalib.c:78-133). An exception thrown is taken to be the outcome.
- Which exception Java sees when the as-written code throws twice (nonzero status and failed allocation) depends on the JVM. The model uses the corrected control flow, where the first exception ends the call.
- WCSLIB projections and transforms (`Transform`, `WCSLib`): native floating-point geometry.
- AsciiCase.CharEqualsIgnoreCase: folds ASCII letters only. Java's `equalsIgnoreCase` also folds other Unicode letters. For example it folds the micro sign 'µ' (U+00B5) with Greek mu, and the Kelvin sign with 'k'. So 'µ' (U+00B5) matches only itself here.
- SpectralUtil.IsValidCunit: strings and arrays are never null here. In Java a null array or a null CUNIT on a spectral axis throws `NullPointerException`, and a null CTYPE never matches.
- The C `int` status is an unbounded integer here. It is only compared with -1, 0 and 1, so its width plays no part.

## Findings

| source | as written | input that shows it | evidently intended | confidence | as-written member | corrected member |
|---|---|---|---|---|---|---|
| cadc-erfa/src/erfaLibJNI/c/erfalib.c:164-169 | After `ThrowNew` for a nonzero status, every wrapper carries on and calls `NewDoubleArray` with the exception pending. | Any nonzero kernel status, for example `eraTaiutc` returning +1 for TAI 2436930.5 + 0.0 | `return NULL;` right after each throw | not executed; the missing return is plain in all ten wrappers, and the JNI specification does not list `NewDoubleArray` among the functions callable while an exception is pending | JniControlFlow.AsWrittenCallsJniWithExceptionPending | JniControlFlow.CorrectedMatchesTranslate |
| cadc-erfa/src/erfaLibJNI/c/erfalib.c:169-175 | After `ThrowNew` for a failed allocation, the wrapper calls `SetDoubleArrayRegion` on the NULL `result`. | `NewDoubleArray` returning NULL, with any kernel status | `return NULL;` right after the throw | not executed; what a write to a NULL array does depends on the JVM | JniControlFlow.AsWrittenWritesNullArray | JniControlFlow.CorrectedMatchesTranslate |
| cadc-wcs/src/test/java/ca/nrc/cadc/wcs/SpectralUtilTest.java:72 | The thirteenth unit (index 12) of `testValidCtypesCunits` is stored as the bytes C3 82 C2 B5 6D, which UTF-8 reads as "Âµm" (three characters). The unit table at SpectralUtil.java:83 stores C2 B5 6D, "µm". | The test's own arrays, with both files compiled as UTF-8: the WAVN axis at index 12 carries "Âµm", which matches no listed unit, so the test's call raises the status-6 exception and the test fails | the micro sign written once, "µm", as in the unit table | not executed; depends on the source encoding the build uses (the two spellings agree only if the test is read as UTF-8 and the main file as Latin-1) | SpectralUtilFacts.VerbatimTableCase | SpectralUtilFacts.ValidTableCase |

=== FILE: ascii_case.dfy ===
/**
  Case-insensitive string comparison as Java's `String.equalsIgnoreCase`
  performs it, restricted to ASCII case folding: letters 'a'..'z' and
  'A'..'Z' fold onto each other and every other character compares exactly.
 */
module AsciiCase {

  predicate IsAsciiLower(c: char) {
    'a' <= c <= 'z'
  }

  predicate IsAsciiUpper(c: char) {
    'A' <= c <= 'Z'
  }

  /** Upper-case mapping of one character (ASCII letters only). */
  function ToUpper(c: char): (u: char)
    ensures !IsAsciiLower(u)
    ensures IsAsciiLower(c) ==> IsAsciiUpper(u)
    ensures !IsAsciiLower(c) ==> u == c
  {
    if IsAsciiLower(c) then (c as int - 32) as char else c
  }

  /** Lower-case mapping of one character (ASCII letters only). */
  function ToLower(c: char): (l: char)
    ensures !IsAsciiUpper(l)
    ensures IsAsciiUpper(c) ==> IsAsciiLower(l)
    ensures !IsAsciiUpper(c) ==> l == c
  {
    if IsAsciiUpper(c) then (c as int + 32) as char else c
  }

  /** The per-character rule of Java's case-insensitive region match:
      equal, or equal after upper-casing, or equal after upper- then
      lower-casing. */
  predicate CharEqualsIgnoreCase(a: char, b: char) {
    a == b || ToUpper(a) == ToUpper(b) || ToLower(ToUpper(a)) == ToLower(ToUpper(b))
  }

  /** Java's `a.equalsIgnoreCase(b)` for non-null strings: same length and
      every aligned pair of characters matches ignoring case. */
  predicate EqualsIgnoreCase(a: string, b: string) {
    |a| == |b| && forall i :: 0 <= i < |a| ==> CharEqualsIgnoreCase(a[i], b[i])
  }

  /** Upper-cases every character of a string. */
  function UpperCase(s: string): (u: string)
    ensures |u| == |s|
    ensures forall i :: 0 <= i < |s| ==> u[i] == ToUpper(s[i])
  {
    seq(|s|, i requires 0 <= i < |s| => ToUpper(s[i]))
  }

  /** Two strings are equal ignoring case exactly when their upper-case
      forms are equal. */
  lemma EqualsIgnoreCaseIff(a: string, b: string)
    ensures EqualsIgnoreCase(a, b) <==> UpperCase(a) == UpperCase(b)
  {
  }

  /** Ignoring case is an equivalence relation on strings. */
  lemma EqualsIgnoreCaseIsEquivalence(a: string, b: string, c: string)
    ensures EqualsIgnoreCase(a, a)
    ensures EqualsIgnoreCase(a, b) ==> EqualsIgnoreCase(b, a)
    ensures EqualsIgnoreCase(a, b) && EqualsIgnoreCase(b, c) ==> EqualsIgnoreCase(a, c)
  {
  }
}

=== FILE: erfa_lib.dfy ===
/**
  The JNI layer over ERFA's time-scale routines. Each of the ten wrappers
  calls one ERFA kernel routine, which returns an integer status and a
  two-part Julian Date, and turns that into either a two-element result
  array or a Java exception.

  The kernel routines are foreign code over doubles. Here the double is an
  abstract type parameter `D` and each routine is a function-valued
  parameter of its wrapper, so nothing is assumed about its numerics.
 */
module ErfaLib {

  /** The four time scales. */
  datatype Scale = TAI | TT | UT1 | UTC {
    function Name(): string {
      match this
      case TAI => "TAI"
      case TT => "TT"
      case UT1 => "UT1"
      case UTC => "UTC"
    }
  }

  /** The ten directed conversions the library exposes. */
  datatype Conversion =
    | TaiToTt | TtToTai | TaiToUt1 | Ut1ToTai | TtToUt1
    | Ut1ToTt | TaiToUtc | UtcToTai | Ut1ToUtc | UtcToUt1
  {
    function Source(): Scale {
      match this
      case TaiToTt => TAI
      case TtToTai => TT
      case TaiToUt1 => TAI
      case Ut1ToTai => UT1
      case TtToUt1 => TT
      case Ut1ToTt => UT1
      case TaiToUtc => TAI
      case UtcToTai => UTC
      case Ut1ToUtc => UT1
      case UtcToUt1 => UTC
    }

    function Target(): Scale {
      match this
      case TaiToTt => TT
      case TtToTai => TAI
      case TaiToUt1 => UT1
      case Ut1ToTai => TAI
      case TtToUt1 => UT1
      case Ut1ToTt => TT
      case TaiToUtc => UTC
      case UtcToTai => TAI
      case Ut1ToUtc => UTC
      case UtcToUt1 => UT1
    }

    /** The kernels of these conversions consult the leap-second table and
        may report a dubious year (+1) or an unacceptable date (-1). */
    predicate TouchesUtc() {
      Source() == UTC || Target() == UTC
    }

    /** The kernels of these conversions take an observed offset in seconds
        (UT1-TAI, TT-UT1 or UT1-UTC) besides the date. */
    predicate TakesOffset() {
      Source() == UT1 || Target() == UT1
    }

    /** Message of the generic exception for a nonzero kernel status that
        is not a date classification. */
    function FailureMessage(): string {
      match this
      case TaiToTt => "unknown error converting TAI->TT"
      case TtToTai => "unknown error converting TAI->TT"
      case TaiToUt1 => "unknown error converting TAI-UT1"
      case Ut1ToTai => "unknown error converting UT1->TAI"
      case TtToUt1 => "unknown error converting TT->UT1"
      case Ut1ToTt => "unknown error converting UT1->TT"
      case TaiToUtc => "unknown error transforming TAI->UTC"
      case UtcToTai => "unknown error transforming UTC->TAI"
      case Ut1ToUtc => "unknown error transforming UT1->UTC"
      case UtcToUt1 => "unknown error transforming UTC->UT1"
    }

    /** The conversion as the messages write it, "SOURCE->TARGET". */
    function Label(): string {
      match this
      case TaiToTt => "TAI->TT"
      case TtToTai => "TT->TAI"
      case TaiToUt1 => "TAI->UT1"
      case Ut1ToTai => "UT1->TAI"
      case TtToUt1 => "TT->UT1"
      case Ut1ToTt => "UT1->TT"
      case TaiToUtc => "TAI->UTC"
      case UtcToTai => "UTC->TAI"
      case Ut1ToUtc => "UT1->UTC"
      case UtcToUt1 => "UTC->UT1"
    }

    /** Message of the generic exception when the result array cannot be
        allocated. */
    function AllocationMessage(): string {
      "unable to allocate memory for " + Label() + " results array"
    }
  }

  const UnacceptableMessage: string := "year too early to compute Julian Date"
  const DubiousMessage: string := "date either predates UTC or too far in the future"

  /** What a kernel routine hands back: its function value and the two
      parts of the converted date. */
  datatype KernelResult<D> = KernelResult(status: int, part1: D, part2: D)

  /** What the Java caller observes: the result array, or one of the three
      exception classes (ERFALibException, DubiousYearException,
      UnacceptableDateException) with its message. */
  datatype Outcome<D> =
    | Ok(result: seq<D>)
    | Generic(message: string)
    | Dubious(message: string)
    | Unacceptable(message: string)

  /** The decision table every wrapper follows, row by row: success needs a
      zero status and an allocated array, which then holds the kernel's
      two parts in order; only UTC conversions classify -1 and +1; every other
      failure is generic, with the status message taking precedence over
      the allocation message. */
  ghost predicate FollowsTable<D>(conv: Conversion, k: KernelResult<D>, arrayAllocated: bool, o: Outcome<D>) {
    && (o.Ok? <==> k.status == 0 && arrayAllocated)
    && (o.Ok? ==> |o.result| == 2 && o.result[0] == k.part1 && o.result[1] == k.part2)
    && (o.Unacceptable? <==> conv.TouchesUtc() && k.status == -1)
    && (o.Unacceptable? ==> o.message == UnacceptableMessage)
    && (o.Dubious? <==> conv.TouchesUtc() && k.status == 1)
    && (o.Dubious? ==> o.message == DubiousMessage)
    && (o.Generic? && k.status != 0 ==> o.message == conv.FailureMessage())
    && (o.Generic? && k.status == 0 ==> o.message == conv.AllocationMessage())
  }

  /** The table leaves no choice: at most one outcome follows it. */
  lemma FollowsTableDeterministic<D>(conv: Conversion, k: KernelResult<D>, arrayAllocated: bool, o1: Outcome<D>, o2: Outcome<D>)
    requires FollowsTable(conv, k, arrayAllocated, o1)
    requires FollowsTable(conv, k, arrayAllocated, o2)
    ensures o1 == o2
  {
  }

  /** The exception a wrapper raises for a nonzero kernel status: only the
      UTC conversions classify -1 and +1. */
  function StatusError<D>(conv: Conversion, status: int): (e: Outcome<D>)
    requires status != 0
    ensures !e.Ok?
    ensures e.Unacceptable? <==> conv.TouchesUtc() && status == -1
    ensures e.Dubious? <==> conv.TouchesUtc() && status == 1
  {
    if conv.TouchesUtc() && status == -1 then Unacceptable(UnacceptableMessage)
    else if conv.TouchesUtc() && status == 1 then Dubious(DubiousMessage)
    else Generic(conv.FailureMessage())
  }

  /** The status and allocation handling shared by all ten wrappers: the
      status is examined first, and the first exception raised ends the
      call. */
  function Translate<D>(conv: Conversion, k: KernelResult<D>, arrayAllocated: bool): (o: Outcome<D>)
    ensures FollowsTable(conv, k, arrayAllocated, o)
  {
    if k.status != 0 then StatusError(conv, k.status)
    else if !arrayAllocated then Generic(conv.AllocationMessage())
    else Ok([k.part1, k.part2])
  }

  // The ten wrappers. Each passes its date parts (and offset) to its kernel
  // routine unchanged and in order; `arrayAllocated` says whether the JVM
  // could allocate the result array.

  function Tai2tt<D>(eraTaitt: (D, D) -> KernelResult<D>, tai1: D, tai2: D, arrayAllocated: bool): (o: Outcome<D>)
    ensures FollowsTable(TaiToTt, eraTaitt(tai1, tai2), arrayAllocated, o)
  {
    Translate(TaiToTt, eraTaitt(tai1, tai2), arrayAllocated)
  }

  function Tt2tai<D>(eraTttai: (D, D) -> KernelResult<D>, tt1: D, tt2: D, arrayAllocated: bool): (o: Outcome<D>)
    ensures FollowsTable(TtToTai, eraTttai(tt1, tt2), arrayAllocated, o)
  {
    Translate(TtToTai, eraTttai(tt1, tt2), arrayAllocated)
  }

  function Tai2ut1<D>(eraTaiut1: (D, D, D) -> KernelResult<D>, tai1: D, tai2: D, dta: D, arrayAllocated: bool): (o: Outcome<D>)
    ensures FollowsTable(TaiToUt1, eraTaiut1(tai1, tai2, dta), arrayAllocated, o)
  {
    Translate(TaiToUt1, eraTaiut1(tai1, tai2, dta), arrayAllocated)
  }

  function Ut12tai<D>(eraUt1tai: (D, D, D) -> KernelResult<D>, ut11: D, ut12: D, dta: D, arrayAllocated: bool): (o: Outcome<D>)
    ensures FollowsTable(Ut1ToTai, eraUt1tai(ut11, ut12, dta), arrayAllocated, o)
  {
    Translate(Ut1ToTai, eraUt1tai(ut11, ut12, dta), arrayAllocated)
  }

  function Tt2ut1<D>(eraTtut1: (D, D, D) -> KernelResult<D>, tt1: D, tt2: D, dt: D, arrayAllocated: bool): (o: Outcome<D>)
    ensures FollowsTable(TtToUt1, eraTtut1(tt1, tt2, dt), arrayAllocated, o)
  {
    Translate(TtToUt1, eraTtut1(tt1, tt2, dt), arrayAllocated)
  }

  function Ut12tt<D>(eraUt1tt: (D, D, D) -> KernelResult<D>, ut11: D, ut12: D, dt: D, arrayAllocated: bool): (o: Outcome<D>)
    ensures FollowsTable(Ut1ToTt, eraUt1tt(ut11, ut12, dt), arrayAllocated, o)
  {
    Translate(Ut1ToTt, eraUt1tt(ut11, ut12, dt), arrayAllocated)
  }

  function Tai2utc<D>(eraTaiutc: (D, D) -> KernelResult<D>, tai1: D, tai2: D, arrayAllocated: bool): (o: Outcome<D>)
    ensures FollowsTable(TaiToUtc, eraTaiutc(tai1, tai2), arrayAllocated, o)
  {
    Translate(TaiToUtc, eraTaiutc(tai1, tai2), arrayAllocated)
  }

  function Utc2tai<D>(eraUtctai: (D, D) -> KernelResult<D>, utc1: D, utc2: D, arrayAllocated: bool): (o: Outcome<D>)
    ensures FollowsTable(UtcToTai, eraUtctai(utc1, utc2), arrayAllocated, o)
  {
    Translate(UtcToTai, eraUtctai(utc1, utc2), arrayAllocated)
  }

  function Ut12utc<D>(eraUt1utc: (D, D, D) -> KernelResult<D>, ut11: D, ut12: D, dut1: D, arrayAllocated: bool): (o: Outcome<D>)
    ensures FollowsTable(Ut1ToUtc, eraUt1utc(ut11, ut12, dut1), arrayAllocated, o)
  {
    Translate(Ut1ToUtc, eraUt1utc(ut11, ut12, dut1), arrayAllocated)
  }

  function Utc2ut1<D>(eraUtcut1: (D, D, D) -> KernelResult<D>, utc1: D, utc2: D, dut1: D, arrayAllocated: bool): (o: Outcome<D>)
    ensures FollowsTable(UtcToUt1, eraUtcut1(utc1, utc2, dut1), arrayAllocated, o)
  {
    Translate(UtcToUt1, eraUtcut1(utc1, utc2, dut1), arrayAllocated)
  }
}

/** Consequences of the wrapper decision table, stated per conversion group,
    and the regularities (and two irregularities) of the messages. */
module ErfaLibFacts {
  import opened ErfaLib

  /** Exactly four conversions touch UTC, and exactly the six involving UT1
      take an observed offset. */
  lemma ConversionGroups(conv: Conversion)
    ensures conv.TouchesUtc() <==> conv in {TaiToUtc, UtcToTai, Ut1ToUtc, UtcToUt1}
    ensures conv.TakesOffset() <==> conv in {TaiToUt1, Ut1ToTai, TtToUt1, Ut1ToTt, Ut1ToUtc, UtcToUt1}
    ensures conv.Source() != conv.Target()
  {
  }

  /** In a UTC conversion the kernel status is read three ways: -1 is an
      unacceptable date, +1 a dubious year, anything else nonzero a generic
      failure; the allocation outcome plays no part. */
  lemma UtcStatusCases<D>(conv: Conversion, k: KernelResult<D>, arrayAllocated: bool)
    requires conv.TouchesUtc()
    requires k.status != 0
    ensures k.status == -1 ==> Translate(conv, k, arrayAllocated) == Unacceptable(UnacceptableMessage)
    ensures k.status == 1 ==> Translate(conv, k, arrayAllocated) == Dubious(DubiousMessage)
    ensures k.status != -1 && k.status != 1 ==>
              Translate(conv, k, arrayAllocated) == Generic(conv.FailureMessage())
  {
  }

  /** In the six conversions that do not touch UTC every nonzero status is a
      generic failure: a dubious year or an unacceptable date never surfaces. */
  lemma NonUtcCollapse<D>(conv: Conversion, k: KernelResult<D>, arrayAllocated: bool)
    requires !conv.TouchesUtc()
    ensures !Translate(conv, k, arrayAllocated).Dubious?
    ensures !Translate(conv, k, arrayAllocated).Unacceptable?
    ensures k.status != 0 ==> Translate(conv, k, arrayAllocated) == Generic(conv.FailureMessage())
  {
  }

  /** With a zero status the outcome is the two-element array of the
      kernel's parts, or the generic allocation failure. */
  lemma SuccessPath<D>(conv: Conversion, k: KernelResult<D>, arrayAllocated: bool)
    requires k.status == 0
    ensures arrayAllocated ==> Translate(conv, k, arrayAllocated) == Ok([k.part1, k.part2])
    ensures !arrayAllocated ==> Translate(conv, k, arrayAllocated) == Generic(conv.AllocationMessage())
  {
  }

  /** Every label names the conversion's source and target scales. */
  lemma LabelNamesEdge(conv: Conversion)
    ensures conv.Label() == conv.Source().Name() + "->" + conv.Target().Name()
  {
  }

  /** The status-failure message of a UTC conversion is "unknown error
      transforming" followed by the conversion's label. */
  lemma UtcFailureMessage(conv: Conversion)
    requires conv.TouchesUtc()
    ensures conv.FailureMessage() == "unknown error transforming " + conv.Label()
  {
  }

  /** The status-failure message of the other conversions is "unknown error
      converting" followed by the conversion's label, except for TT->TAI and
      TAI->UT1. */
  lemma NonUtcFailureMessage(conv: Conversion)
    requires !conv.TouchesUtc() && conv != TtToTai && conv != TaiToUt1
    ensures conv.FailureMessage() == "unknown error converting " + conv.Label()
  {
  }

  /** The two irregular messages: TT->TAI reuses the TAI->TT text, and
      TAI->UT1 writes a hyphen instead of an arrow. No other two conversions
      share a status-failure message. */
  lemma FailureMessageQuirks(c1: Conversion, c2: Conversion)
    ensures TtToTai.FailureMessage() == TaiToTt.FailureMessage()
    ensures TaiToUt1.FailureMessage() == "unknown error converting " + TAI.Name() + "-" + UT1.Name()
    ensures c1 != c2 && c1.FailureMessage() == c2.FailureMessage() ==>
              {c1, c2} == {TaiToTt, TtToTai}
  {
  }

  /** A wrapper looks at its kernel only at the arguments it was given, in
      the order it was given them: two kernels that agree there give the
      same outcome, and success returns exactly that point's two parts. */
  lemma KernelArgumentsPassedThrough<D>(
      k1: (D, D, D) -> KernelResult<D>, k2: (D, D, D) -> KernelResult<D>,
      ut11: D, ut12: D, dut1: D, arrayAllocated: bool)
    requires k1(ut11, ut12, dut1) == k2(ut11, ut12, dut1)
    ensures Ut12utc(k1, ut11, ut12, dut1, arrayAllocated) == Ut12utc(k2, ut11, ut12, dut1, arrayAllocated)
    ensures Ut12utc(k1, ut11, ut12, dut1, arrayAllocated).Ok? ==>
              Ut12utc(k1, ut11, ut12, dut1, arrayAllocated).result
              == [k1(ut11, ut12, dut1).part1, k1(ut11, ut12, dut1).part2]
  {
  }
}

=== FILE: jni_control_flow.dfy ===
/**
  The sequence of JNI calls a time-scale wrapper makes. In erfalib.c every
  wrapper raises its Java exception with ThrowNew and then carries on: it
  allocates the result array even though an exception is pending, and when
  the allocation fails it copies the two parts into the null array before
  returning. With an exception pending the JNI specification allows only
  its exception-safe functions (such as ExceptionCheck, ExceptionClear and
  DeleteLocalRef); NewDoubleArray and SetDoubleArrayRegion are not among
  them. Of the calls modelled here, only the return is allowed. `AsWritten` records the calls as the code makes them; `Corrected`
  returns straight after the first exception, and its observable outcome is
  `ErfaLib.Translate`, which the rest of the model uses.
 */
module JniControlFlow {
  import opened ErfaLib

  /** One call a wrapper makes. */
  datatype Step<D> =
    | CallKernel
    | ThrowNew(error: Outcome<D>)
    | NewDoubleArray
    | SetDoubleArrayRegion(onNullArray: bool)
    | Return(nullArray: bool)

  /** The calls as erfalib.c makes them: no return after either ThrowNew. */
  function AsWritten<D>(conv: Conversion, status: int, arrayAllocated: bool): (t: seq<Step<D>>)
    ensures |t| == 4 + (if status != 0 then 1 else 0) + (if arrayAllocated then 0 else 1)
    ensures t[0] == CallKernel
    ensures t[1].ThrowNew? <==> status != 0
    ensures status != 0 ==> t[1] == ThrowNew(StatusError(conv, status))
    ensures t[1 + (if status != 0 then 1 else 0)] == NewDoubleArray
    ensures t[|t| - 3].ThrowNew? <==> !arrayAllocated
    ensures !arrayAllocated ==> t[|t| - 3] == ThrowNew(Generic(conv.AllocationMessage()))
    ensures t[|t| - 2] == SetDoubleArrayRegion(!arrayAllocated) && t[|t| - 1] == Return(!arrayAllocated)
    ensures forall i :: 0 <= i < |t| - 1 ==> !t[i].Return?
    ensures forall i :: 0 <= i < |t| && t[i].ThrowNew? ==> i + 1 < |t| && !t[i + 1].Return?
  {
    [CallKernel]
    + (if status != 0 then [ThrowNew(StatusError(conv, status))] else [])
    + [NewDoubleArray]
    + (if !arrayAllocated then [ThrowNew(Generic(conv.AllocationMessage()))] else [])
    + [SetDoubleArrayRegion(!arrayAllocated), Return(!arrayAllocated)]
  }

  /** The calls with a return of null straight after each ThrowNew. */
  function Corrected<D>(conv: Conversion, status: int, arrayAllocated: bool): seq<Step<D>> {
    if status != 0 then
      [CallKernel, ThrowNew(StatusError(conv, status)), Return(true)]
    else if !arrayAllocated then
      [CallKernel, NewDoubleArray, ThrowNew(Generic(conv.AllocationMessage())), Return(true)]
    else
      [CallKernel, NewDoubleArray, SetDoubleArrayRegion(false), Return(false)]
  }

  /** Once an exception is pending the native code makes no further call of
      those modelled here: it only returns. */
  predicate NoCallWhilePending<D>(trace: seq<Step<D>>) {
    forall i, j :: 0 <= i < j < |trace| && trace[i].ThrowNew? ==> trace[j].Return?
  }

  /** The native code never writes into a null array. */
  predicate NoNullArrayWrite<D>(trace: seq<Step<D>>) {
    forall i :: 0 <= i < |trace| && trace[i].SetDoubleArrayRegion? ==> !trace[i].onNullArray
  }

  /** The JNI discipline a wrapper must keep. */
  predicate ObeysJni<D>(trace: seq<Step<D>>) {
    NoCallWhilePending(trace) && NoNullArrayWrite(trace)
  }

  /** What the Java caller sees from a call that obeys the JNI discipline:
      the exception thrown, if any, and otherwise the filled array. */
  function Observed<D>(trace: seq<Step<D>>, part1: D, part2: D): Outcome<D> {
    if |trace| == 0 then Ok([part1, part2])
    else if trace[0].ThrowNew? then trace[0].error
    else Observed(trace[1..], part1, part2)
  }

  /** As written, a nonzero status leads to NewDoubleArray with the status
      exception pending. */
  lemma AsWrittenCallsJniWithExceptionPending<D>(conv: Conversion, status: int, arrayAllocated: bool)
    requires status != 0
    ensures AsWritten<D>(conv, status, arrayAllocated)[2] == NewDoubleArray
    ensures !NoCallWhilePending(AsWritten<D>(conv, status, arrayAllocated))
    ensures !ObeysJni(AsWritten<D>(conv, status, arrayAllocated))
  {
  }

  /** As written, a failed allocation leads to SetDoubleArrayRegion on the
      null array, whatever the status. */
  lemma AsWrittenWritesNullArray<D>(conv: Conversion, status: int)
    ensures !NoNullArrayWrite(AsWritten<D>(conv, status, false))
    ensures !ObeysJni(AsWritten<D>(conv, status, false))
  {
  }

  /** The corrected calls obey the JNI discipline on every path, coincide
      with the calls as written up to and including the first ThrowNew,
      which a return then follows, and are observed as
      exactly the outcome `Translate` gives. */
  lemma CorrectedMatchesTranslate<D>(conv: Conversion, k: KernelResult<D>, arrayAllocated: bool)
    ensures ObeysJni(Corrected<D>(conv, k.status, arrayAllocated))
    ensures k.status == 0 && arrayAllocated ==>
              Corrected<D>(conv, k.status, arrayAllocated) == AsWritten<D>(conv, k.status, arrayAllocated)
    ensures k.status != 0 ==>
              Corrected<D>(conv, k.status, arrayAllocated) == AsWritten<D>(conv, k.status, arrayAllocated)[..2] + [Return(true)]
    ensures k.status == 0 && !arrayAllocated ==>
              Corrected<D>(conv, k.status, arrayAllocated) == AsWritten<D>(conv, k.status, arrayAllocated)[..3] + [Return(true)]
    ensures Observed(Corrected<D>(conv, k.status, arrayAllocated), k.part1, k.part2)
            == Translate(conv, k, arrayAllocated)
  {
    var t := Corrected<D>(conv, k.status, arrayAllocated);
    var p1, p2 := k.part1, k.part2;
    if k.status != 0 {
      assert Observed(t, p1, p2) == Observed(t[1..], p1, p2);
    } else if !arrayAllocated {
      assert Observed(t, p1, p2) == Observed(t[1..], p1, p2) == Observed(t[2..], p1, p2);
      assert t[2..][0].ThrowNew?;
    } else {
      assert Observed(t, p1, p2) == Observed(t[1..], p1, p2) == Observed(t[2..], p1, p2)
             == Observed(t[3..], p1, p2) == Observed(t[4..], p1, p2);
      assert t[4..] == [];
    }
  }
}

=== FILE: spectral_util.dfy ===
/**
  The spectral CUNIT validator of the WCS library: before a header is handed
  to WCSLIB, every axis whose CTYPE is one of the known spectral codes must
  carry either no unit or one of the known spectral units; otherwise the
  call fails with status 6.

  Arrays of strings are modelled as sequences, which are values: the
  validator cannot modify its inputs.
 */
module SpectralUtil {
  import opened AsciiCase

  /** The ten spectral CTYPE codes. */
  const SpectralCtypes: seq<string> :=
    ["FREQ", "ENER", "WAVN", "VRAD", "WAVE", "VOPT", "ZOPT", "AWAV", "VELO", "BETA"]

  /** The sixteen spectral CUNIT values; "\U{00B5}m" is micrometre with the micro sign. */
  const SpectralCunits: seq<string> :=
    ["Hz", "kHz", "MHz", "GHz", "eV", "keV", "MeV", "GeV",
     "m", "cm", "mm", "um", "\U{00B5}m", "nm", "Angstrom", "A"]

  const InvalidParametersMessage: string := "Invalid coordinate transformation parameters"
  const InvalidParametersStatus: int := 6

  /** How a call of the validator ends: normally, with the runtime exception
      carrying a message and a status, or with Java's array-index exception
      when a spectral CTYPE has no CUNIT at the same index. */
  datatype Outcome =
    | Accepted
    | Rejected(message: string, status: int)
    | IndexOutOfBounds(index: nat)

  /** The whole CTYPE equals one of the spectral codes, ignoring case. */
  predicate IsSpectralCtype(ctype: string) {
    exists k :: 0 <= k < |SpectralCtypes| && EqualsIgnoreCase(SpectralCtypes[k], ctype)
  }

  /** The CUNIT equals one of the spectral units, ignoring case. */
  predicate IsKnownCunit(cunit: string) {
    exists k :: 0 <= k < |SpectralCunits| && EqualsIgnoreCase(SpectralCunits[k], cunit)
  }

  /** A unit that passes for a spectral axis: empty or known. */
  predicate AcceptableUnit(cunit: string) {
    cunit == "" || IsKnownCunit(cunit)
  }

  /** Axis i stops the scan: it is spectral and its unit is missing
      (the index is past the end of cunits) or unacceptable. */
  predicate FaultAt(ctypes: seq<string>, cunits: seq<string>, i: nat)
    requires i < |ctypes|
  {
    IsSpectralCtype(ctypes[i]) && (i >= |cunits| || !AcceptableUnit(cunits[i]))
  }

  /** The first faulty axis at or after `from`, or |ctypes| if there is none. */
  function FirstFault(ctypes: seq<string>, cunits: seq<string>, from: nat): (r: nat)
    requires from <= |ctypes|
    ensures from <= r <= |ctypes|
    ensures forall j :: from <= j < r ==> !FaultAt(ctypes, cunits, j)
    ensures r < |ctypes| ==> FaultAt(ctypes, cunits, r)
    decreases |ctypes| - from
  {
    if from == |ctypes| then from
    else if FaultAt(ctypes, cunits, from) then from
    else FirstFault(ctypes, cunits, from + 1)
  }

  /** Functional specification of the validator: empty arrays are accepted
      outright; otherwise the axes are scanned in order and the first faulty
      one decides the outcome. */
  function Check(ctypes: seq<string>, cunits: seq<string>): (r: Outcome)
    ensures |ctypes| == 0 || |cunits| == 0 ==> r == Accepted
    ensures r.Rejected? ==>
              r.message == InvalidParametersMessage && r.status == InvalidParametersStatus
    ensures r.IndexOutOfBounds? ==>
              |cunits| <= r.index < |ctypes| && IsSpectralCtype(ctypes[r.index])
  {
    if |ctypes| == 0 || |cunits| == 0 then Accepted
    else
      var i := FirstFault(ctypes, cunits, 0);
      if i == |ctypes| then Accepted
      else if i >= |cunits| then IndexOutOfBounds(i)
      else Rejected(InvalidParametersMessage, InvalidParametersStatus)
  }

  /** Every spectral axis has a CUNIT at the same index, so the Java code
      never indexes past the end of cunits. */
  predicate WellPaired(ctypes: seq<string>, cunits: seq<string>) {
    forall i :: 0 <= i < |ctypes| && IsSpectralCtype(ctypes[i]) ==> i < |cunits|
  }

  /** Some axis pairs a spectral CTYPE with a non-empty, unlisted CUNIT. */
  predicate Invalid(ctypes: seq<string>, cunits: seq<string>) {
    && |ctypes| > 0
    && |cunits| > 0
    && exists i :: 0 <= i < |ctypes| && i < |cunits|
                  && IsSpectralCtype(ctypes[i]) && !AcceptableUnit(cunits[i])
  }

  /** The validator, written as the Java loop nest: for each axis, for each
      spectral code that matches it, look its unit up in the unit table. */
  method IsValidCunit(ctypes: seq<string>, cunits: seq<string>) returns (r: Outcome)
    ensures r == Check(ctypes, cunits)
  {
    if |ctypes| == 0 || |cunits| == 0 {
      return Accepted;
    }
    var i := 0;
    while i < |ctypes|
      invariant 0 <= i <= |ctypes|
      invariant forall j :: 0 <= j < i ==> !FaultAt(ctypes, cunits, j)
    {
      var ctype := ctypes[i];
      var k := 0;
      while k < |SpectralCtypes|
        invariant 0 <= k <= |SpectralCtypes|
        invariant (exists m :: 0 <= m < k && EqualsIgnoreCase(SpectralCtypes[m], ctype))
                  ==> i < |cunits| && AcceptableUnit(cunits[i])
      {
        if EqualsIgnoreCase(SpectralCtypes[k], ctype) {
          if i >= |cunits| {
            FirstFaultAt(ctypes, cunits, i);
            return IndexOutOfBounds(i);
          }
          var cunit := cunits[i];
          if cunit != "" {
            var found := false;
            var n := 0;
            while n < |SpectralCunits|
              invariant 0 <= n <= |SpectralCunits|
              invariant found <==> exists m :: 0 <= m < n && EqualsIgnoreCase(SpectralCunits[m], cunit)
            {
              if EqualsIgnoreCase(SpectralCunits[n], cunit) {
                found := true;
              }
              n := n + 1;
            }
            if !found {
              FirstFaultAt(ctypes, cunits, i);
              return Rejected(InvalidParametersMessage, InvalidParametersStatus);
            }
          }
        }
        k := k + 1;
      }
      i := i + 1;
    }
    FirstFaultNone(ctypes, cunits);
    return Accepted;
  }

  /** If axis i is faulty and no earlier axis is, the scan stops at i. */
  lemma FirstFaultAt(ctypes: seq<string>, cunits: seq<string>, i: nat)
    requires i < |ctypes|
    requires FaultAt(ctypes, cunits, i)
    requires forall j :: 0 <= j < i ==> !FaultAt(ctypes, cunits, j)
    ensures FirstFault(ctypes, cunits, 0) == i
  {
  }

  /** With no faulty axis the scan runs to the end. */
  lemma FirstFaultNone(ctypes: seq<string>, cunits: seq<string>)
    requires forall j :: 0 <= j < |ctypes| ==> !FaultAt(ctypes, cunits, j)
    ensures FirstFault(ctypes, cunits, 0) == |ctypes|
  {
  }

  /** The call fails, one way or the other, exactly when both arrays are
      non-empty and some axis is faulty. */
  lemma FailsIffSomeFault(ctypes: seq<string>, cunits: seq<string>)
    ensures Check(ctypes, cunits) != Accepted <==>
              |ctypes| > 0 && |cunits| > 0 &&
              exists i :: 0 <= i < |ctypes| && FaultAt(ctypes, cunits, i)
  {
  }

  /** For well-paired arrays the index exception cannot happen, and the
      status-6 exception is raised exactly when the arrays are Invalid. */
  lemma RejectedIffInvalid(ctypes: seq<string>, cunits: seq<string>)
    requires WellPaired(ctypes, cunits)
    ensures !Check(ctypes, cunits).IndexOutOfBounds?
    ensures Check(ctypes, cunits).Rejected? <==> Invalid(ctypes, cunits)
    ensures Check(ctypes, cunits) == Accepted <==> !Invalid(ctypes, cunits)
  {
    FailsIffSomeFault(ctypes, cunits);
    if Check(ctypes, cunits).Rejected? {
      var i := FirstFault(ctypes, cunits, 0);
      assert i < |cunits| && FaultAt(ctypes, cunits, i);
    }
    if Invalid(ctypes, cunits) {
      var i :| 0 <= i < |ctypes| && i < |cunits|
               && IsSpectralCtype(ctypes[i]) && !AcceptableUnit(cunits[i]);
      assert FaultAt(ctypes, cunits, i);
    }
  }
}

/** Facts about the SpectralUtil tables and the validator that relate it to
    independent descriptions and to the cases the unit tests exercise. */
module SpectralUtilFacts {
  import opened AsciiCase
  import opened SpectralUtil

  /** The unit table after upper-casing, entry by entry. */
  const UpperCunits: seq<string> :=
    ["HZ", "KHZ", "MHZ", "GHZ", "EV", "KEV", "MEV", "GEV",
     "M", "CM", "MM", "UM", "\U{00B5}M", "NM", "ANGSTROM", "A"]

  predicate NoAsciiLower(s: string) {
    forall i :: 0 <= i < |s| ==> !IsAsciiLower(s[i])
  }

  lemma UpperCaseFixesUpper(s: string)
    requires NoAsciiLower(s)
    ensures UpperCase(s) == s
  {
  }

  /** A CTYPE is spectral exactly when its upper-case form is one of the ten
      codes; in particular only four-character CTYPEs can be spectral. */
  lemma SpectralCtypeByUpperCase(ctype: string)
    ensures IsSpectralCtype(ctype) <==> UpperCase(ctype) in SpectralCtypes
    ensures IsSpectralCtype(ctype) ==> |ctype| == 4
  {
    forall k | 0 <= k < |SpectralCtypes|
      ensures EqualsIgnoreCase(SpectralCtypes[k], ctype) <==> SpectralCtypes[k] == UpperCase(ctype)
    {
      UpperCaseFixesUpper(SpectralCtypes[k]);
      EqualsIgnoreCaseIff(SpectralCtypes[k], ctype);
    }
  }

  /** A CUNIT is known exactly when its upper-case form is in the upper-cased
      unit table. */
  lemma KnownCunitByUpperCase(cunit: string)
    ensures IsKnownCunit(cunit) <==> UpperCase(cunit) in UpperCunits
  {
    forall k | 0 <= k < |SpectralCunits|
      ensures EqualsIgnoreCase(SpectralCunits[k], cunit) <==> UpperCunits[k] == UpperCase(cunit)
    {
      EqualsIgnoreCaseIff(SpectralCunits[k], cunit);
      UpperCunitsEntry(k);
    }
  }

  /** Upper-casing the k-th unit gives the k-th entry of UpperCunits. */
  lemma UpperCunitsEntry(k: nat)
    requires k < |SpectralCunits|
    ensures UpperCase(SpectralCunits[k]) == UpperCunits[k]
  {
  }

  /** The scan depends on the arrays only through which axes are faulty. */
  lemma FirstFaultCongruent(
      ctypes: seq<string>, cunits: seq<string>, cunits': seq<string>, from: nat)
    requires from <= |ctypes|
    requires forall j :: from <= j < |ctypes| ==>
               (FaultAt(ctypes, cunits, j) <==> FaultAt(ctypes, cunits', j))
    ensures FirstFault(ctypes, cunits, from) == FirstFault(ctypes, cunits', from)
  {
  }

  /** The unit paired with a non-spectral CTYPE (such as "FOO") is never
      looked at: replacing it leaves the outcome unchanged. */
  lemma NonSpectralUnitIgnored(ctypes: seq<string>, cunits: seq<string>, i: nat, unit: string)
    requires i < |ctypes| && i < |cunits|
    requires !IsSpectralCtype(ctypes[i])
    ensures Check(ctypes, cunits[i := unit]) == Check(ctypes, cunits)
  {
    FirstFaultCongruent(ctypes, cunits, cunits[i := unit], 0);
  }

  /** One axis: the validator accepts exactly when the CTYPE is not spectral
      or its unit is empty or listed, whatever the pairing of dimensions
      (a frequency axis in electron-volts passes). */
  lemma SingleAxis(ctype: string, cunit: string)
    ensures Check([ctype], [cunit]) == Accepted <==> !IsSpectralCtype(ctype) || AcceptableUnit(cunit)
    ensures Check([ctype], [cunit]) != Accepted ==>
              Check([ctype], [cunit]) == Rejected(InvalidParametersMessage, InvalidParametersStatus)
  {
  }

  /** Empty arrays, and the non-spectral CTYPEs "" and "FREQ-F2W", are
      accepted whatever the other array holds. */
  lemma EmptyParameterCases()
    ensures Check([], []) == Accepted
    ensures Check([], ["Hz"]) == Accepted
    ensures Check(["FREQ-F2W"], []) == Accepted
    ensures Check([""], ["Hz"]) == Accepted
    ensures Check(["FREQ-F2W"], [""]) == Accepted
  {
  }

  /** An unknown CTYPE between two spectral axes with listed units. */
  lemma UnknownCtypeCase()
    ensures Check(["WAVE", "FOO", "FREQ"], ["m", "Hz", "eV"]) == Accepted
  {
    var ctypes, cunits := ["WAVE", "FOO", "FREQ"], ["m", "Hz", "eV"];
    SpectralCtypeByUpperCase("FOO");
    assert !FaultAt(ctypes, cunits, 0) by {
      KnownCunitByUpperCase("m");
      assert UpperCase("m") == "M";
    }
    assert !FaultAt(ctypes, cunits, 2) by {
      KnownCunitByUpperCase("eV");
      assert UpperCase("eV") == "EV";
    }
    FailsIffSomeFault(ctypes, cunits);
  }

  /** An unlisted unit on the second, spectral, axis is rejected. */
  lemma InvalidCunitCase()
    ensures Check(["WAVE", "ENER", "FREQ"], ["m", "BAR", "eV"])
            == Rejected(InvalidParametersMessage, InvalidParametersStatus)
  {
    var ctypes, cunits := ["WAVE", "ENER", "FREQ"], ["m", "BAR", "eV"];
    assert !FaultAt(ctypes, cunits, 0) by {
      KnownCunitByUpperCase("m");
      assert UpperCase("m") == "M";
    }
    assert FaultAt(ctypes, cunits, 1) by {
      assert EqualsIgnoreCase(SpectralCtypes[1], "ENER");
      KnownCunitByUpperCase("BAR");
      assert UpperCase("BAR") == "BAR";
    }
    FirstFaultAt(ctypes, cunits, 1);
  }

  /** Every listed unit is acceptable on any spectral axis, so the sixteen
      axes pairing the codes (cycled) with the sixteen units are accepted.
      This is the table test with the micrometre unit written "\U{00B5}m",
      as the unit table writes it. */
  lemma ValidTableCase()
    ensures Check(SpectralCtypes + SpectralCtypes[..6], SpectralCunits) == Accepted
  {
  }

  /** The table test with its arrays exactly as the test file's bytes spell
      them in UTF-8: the micrometre unit there is "\U{00C2}\U{00B5}m", a
      doubly encoded micro sign of three characters that no table entry
      matches, so the WAVN axis at index 12 is rejected. */
  lemma VerbatimTableCase()
    ensures Check(["FREQ", "ENER", "WAVN", "VRAD", "WAVE", "VOPT", "ZOPT", "AWAV",
                   "VELO", "BETA", "FREQ", "ENER", "WAVN", "VRAD", "WAVE", "VOPT"],
                  ["Hz", "kHz", "MHz", "GHz", "eV", "keV", "MeV", "GeV",
                   "m", "cm", "mm", "um", "\U{00C2}\U{00B5}m", "nm", "Angstrom", "A"])
            == Rejected(InvalidParametersMessage, InvalidParametersStatus)
  {
    var ctypes := ["FREQ", "ENER", "WAVN", "VRAD", "WAVE", "VOPT", "ZOPT", "AWAV",
                   "VELO", "BETA", "FREQ", "ENER", "WAVN", "VRAD", "WAVE", "VOPT"];
    var cunits := ["Hz", "kHz", "MHz", "GHz", "eV", "keV", "MeV", "GeV",
                   "m", "cm", "mm", "um", "\U{00C2}\U{00B5}m", "nm", "Angstrom", "A"];
    assert ctypes == SpectralCtypes + SpectralCtypes[..6];
    assert cunits == SpectralCunits[12 := "\U{00C2}\U{00B5}m"];
    ValidTableCase();
    FailsIffSomeFault(ctypes, SpectralCunits);
    DoublyEncodedMicrometreUnknown();
    assert IsSpectralCtype(ctypes[12]) by {
      assert EqualsIgnoreCase(SpectralCtypes[2], ctypes[12]);
    }
    FirstFaultAfterOneChange(ctypes, SpectralCunits, 12, "\U{00C2}\U{00B5}m");
  }

  /** The doubly encoded micrometre unit is not acceptable. */
  lemma DoublyEncodedMicrometreUnknown()
    ensures !AcceptableUnit("\U{00C2}\U{00B5}m")
  {
    KnownCunitByUpperCase("\U{00C2}\U{00B5}m");
    assert UpperCase("\U{00C2}\U{00B5}m")[0] == '\U{00C2}';
  }

  /** Changing the unit of one spectral axis, in arrays that had no faulty
      axis, to an unacceptable unit makes that axis the first fault. */
  lemma FirstFaultAfterOneChange(ctypes: seq<string>, cunits: seq<string>, i: nat, unit: string)
    requires i < |ctypes| && i < |cunits|
    requires forall j :: 0 <= j < |ctypes| ==> !FaultAt(ctypes, cunits, j)
    requires IsSpectralCtype(ctypes[i]) && !AcceptableUnit(unit)
    ensures Check(ctypes, cunits[i := unit]) == Rejected(InvalidParametersMessage, InvalidParametersStatus)
  {
    var changed := cunits[i := unit];
    forall j | 0 <= j < i
      ensures !FaultAt(ctypes, changed, j)
    {
      assert !FaultAt(ctypes, cunits, j);
    }
    FirstFaultAt(ctypes, changed, i);
  }

  /** Case-insensitive matching lets prefixes of different magnitude collide:
      millihertz passes as megahertz and megametres as millimetres. */
  lemma CaseCollisions()
    ensures IsKnownCunit("mHz")
    ensures IsKnownCunit("Mm")
    ensures IsSpectralCtype("freq")
  {
    assert EqualsIgnoreCase(SpectralCunits[2], "mHz");
    assert EqualsIgnoreCase(SpectralCunits[10], "Mm");
    assert EqualsIgnoreCase(SpectralCtypes[0], "freq");
  }
}
